=== FILE: README.md ===
# Quran memorisation tracker: the data model, verified

This project models the logic behind the "4-Week Growth Mindset Challenge" page
(`growthmindset.py`). The page tracks how many verses of six surahs were memorised
in each of four weeks. The model leaves out the page's widgets and keeps what the
script computes and stores:

- **the surah catalogue**: a fixed dict from surah name to verse count, with six
  entries totalling 548 (module `Catalogue`);
- **the progress store**: week 1 to 4, each mapped to a dict from surah to memorised
  count. Reads default to 0. The slider loop writes one cell per surah, in
  catalogue order (class `Tracker.Tracker`, module `Store`);
- **the reflection store**: week to free text. The text area's value replaces the
  current week's entry (class `Tracker.Tracker`);
- **the aggregator**: per-surah totals over the four weeks, with no cap. It also
  gives the bar chart's per-surah ratios, the overall total and the four-band tier
  of the achievement ratio (module `Aggregate`);
- **the text builders**: the `save_data` record and the weekly report string
  (`Tracker.Tracker.SaveData`, `Tracker.Tracker.BuildReport`, module `Report`).

Python dicts keep insertion order, and the report lists `progress[week].items()`
in that order. So a dict is modelled as a sequence of entries with distinct keys
(module `OrderedDict`). `get` reads the first entry with the key, or the default.
Assigning to an existing key keeps its place; assigning to a new key appends it.
Integers in f-strings are rendered by `Decimal.Format`, with a parser that undoes
it.

Ratios are kept as numerator/denominator pairs (`Aggregate.Ratio`). The tier chain
`< 0.25`, `< 0.5`, `< 0.75`, else, is computed by integer cross-multiplication.
`Aggregate.Classify` states it against exact real division, in both directions for
each band.

One page interaction (a Streamlit rerun) is the method `Tracker.Tracker.Rerun`.
It runs the slider loop with the values the sliders return, stores the text area's
text as the week's reflection, and returns the tier and the bar ratios of the
updated store. The slider values, the text-area text and the date are parameters.
The report (`Tracker.Tracker.BuildReport`) reads the selected week's stored
reflection. That is the text area's value, which the same run stored at
growthmindset.py:72.

The code (growthmindset.py:119-121) writes `"\n\nProgress:\n"` after the header and
lists the entries of the week's dict. After any slider pass those entries are
every catalogue surah, in catalogue order. The first pass on an empty week lays them
out (`Store.SliderPassFirstTime`), and every later pass keeps that layout
(`Store.SliderPassLaterTime`, `Store.SliderPassCatalogueOrder`).

## Model

| member | source | states |
|---|---|---|
| `OrderedDict.Get` | growthmindset.py:39 | `d.get(k, default)`: for a key the dict holds, the value read is one stored with that key; `OrderedDict.GetAbsent` and `OrderedDict.GetAt` give the rest |
| `OrderedDict.Put` | growthmindset.py:42 | `d[k] = v`: the dict grows by one entry exactly when `k` is new; `OrderedDict.PutGetSame`, `OrderedDict.PutKeys` and `OrderedDict.PutNoDup` give the rest |
| `OrderedDict.GetAbsent` | growthmindset.py:39 | `d.get(k, default)` on a key the dict does not hold returns the default |
| `OrderedDict.GetAt` | growthmindset.py:55 | in a dict without repeated keys, `get` returns the value stored with the key |
| `OrderedDict.PutGetSame` | growthmindset.py:42 | after `d[k] = v`, `d.get(k, x)` is `v` whatever the default |
| `OrderedDict.PutGetOther` | growthmindset.py:42 | `d[k] = v` leaves what every other key reads unchanged |
| `OrderedDict.PutKeys` | growthmindset.py:42 | `d[k] = v` keeps the key order; a new key is appended at the end, an existing one keeps its place |
| `OrderedDict.PutEntries` | growthmindset.py:42 | every entry after `d[k] = v` is an old entry or the new pair |
| `OrderedDict.PutNoDup` | growthmindset.py:42 | assignment never duplicates a key |
| `OrderedDict.PutAppends` | growthmindset.py:42 | a key the dict lacks is appended as the last entry |
| `OrderedDict.PutAll` | growthmindset.py:31-42 | the assignments `d[ks[0]] = vs[0]`, ..., in order, as the slider loop performs them; definition, whose meaning is stated by `OrderedDict.PutAllGetWritten`, `OrderedDict.PutAllGetOther` and `OrderedDict.PutAllIntoEmpty` |
| `OrderedDict.SumValues` | growthmindset.py:75-76 | `sum(d.values())`: never negative when no value is; `Catalogue.TotalVerses` and `Aggregate.TotalMemorized` give its value on the catalogue and on `total_progress` |
| `OrderedDict.PutAllGetWritten` | growthmindset.py:31-42 | after the assignments for distinct keys in order, each key reads the value written for it |
| `OrderedDict.PutAllGetOther` | growthmindset.py:31-42 | a key not among those written reads as before |
| `OrderedDict.PutAllKeysPresent` | growthmindset.py:31-42 | assignments that only overwrite keys the dict already holds leave its key order unchanged |
| `OrderedDict.PutAllIntoEmpty` | growthmindset.py:31-42 | writing distinct keys into an empty dict lays them out in the order written |
| `OrderedDict.PutAllUnchangedValues` | growthmindset.py:36-42 | writing back the values the keys already read (their defaults) changes no value `get` can see |
| `Catalogue.CatalogueWellFormed` | growthmindset.py:12-19 | the catalogue has six surahs with distinct names and positive verse counts |
| `Catalogue.VersesOf` | growthmindset.py:12-19 | `surahs[name]` is positive and is the count listed with that name |
| `Catalogue.TotalVerses` | growthmindset.py:76 | `sum(surahs.values())` is 548 |
| `Decimal.NatDigitsShape` | growthmindset.py:119-121 | the decimal digits of a natural number are nonempty, all digits, with no leading zero |
| `Decimal.Format` | growthmindset.py:119-121 | `str(n)` of an int in an f-string: nonempty, beginning with a minus sign exactly when `n` is negative; `Decimal.FormatRoundTrip` shows it loses nothing |
| `Decimal.DigitsRoundTrip` | growthmindset.py:119-121 | reading the digits of `n` back as a number gives `n` |
| `Decimal.FormatRoundTrip` | growthmindset.py:119-121 | parsing `str(n)` gives `n` back, for every integer |
| `Decimal.FormatInjective` | growthmindset.py:119-121 | distinct numbers render as distinct strings |
| `Aggregate.TotalProgress` | growthmindset.py:54-57 | `total_progress` has exactly the catalogue's surahs as keys, in catalogue order |
| `Aggregate.Classify` | growthmindset.py:77-87 | band 0 iff ratio < 0.25, band 1 iff 0.25 <= ratio < 0.5, band 2 iff 0.5 <= ratio < 0.75, band 3 iff ratio >= 0.75, by exact real division |
| `Aggregate.RatioBelow` | growthmindset.py:77-83 | `m / v < a / b` holds exactly when `b * m < a * v`, which is why integer comparisons decide the bands |
| `Aggregate.ClassifyMonotone` | growthmindset.py:79-87 | a larger total never gives a lower band |
| `Aggregate.ClassifyBoundaries` | growthmindset.py:79-87 | each threshold value falls into the band above it; a quarter minus one stays in band 0 |
| `Aggregate.UnitTotal` | growthmindset.py:55 | `sum(progress[week].get(surah, 0) for week in range(1, 5))`: a surah's total is the sum of its counts in weeks 1, 2, 3 and 4 |
| `Aggregate.UnitTotalBounds` | growthmindset.py:54-57 | a total lies in `[0, 4 * verses]`; it is bounded by four full memorisations, not by the verse count |
| `Aggregate.TotalProgressGet` | growthmindset.py:54-57 | `total_progress[surah]` is that surah's four-week total |
| `Aggregate.Percentages` | growthmindset.py:58-63 | the "Memorized (%)" column: one bar per catalogue surah, in catalogue order, over that surah's positive verse count; its numerator is stated by `Aggregate.PercentagesMeaning` |
| `Aggregate.PercentagesMeaning` | growthmindset.py:60-62 | wherever the bars are defined, each bar is the surah's four-week total over its verse count |
| `Aggregate.PercentagesBounds` | growthmindset.py:58-63 | in a well-formed store each bar lies between 0 and 4 |
| `Aggregate.TotalMemorized` | growthmindset.py:75 | `total_memorized` adds up each catalogue surah's four-week total exactly once, in catalogue order |
| `Aggregate.Achievement` | growthmindset.py:77-87 | the tier of `total_memorized / total_verses`: each of the four bands holds exactly when the exact ratio lies in its interval |
| `Aggregate.TotalMemorizedBounds` | growthmindset.py:75-77 | the overall total lies in `[0, 4 * total_verses]`, so the ratio lies in `[0, 4]` |
| `Store.InitialProgress` | growthmindset.py:7 | `{week: {} for week in range(1, 5)}`: a well-formed store whose weeks 1 to 4 are all empty |
| `Store.Cell` | growthmindset.py:39 | `progress[week].get(surah, 0)`: a surah the week's dict does not hold reads 0; `Store.CellInRange` bounds it and `Store.StoreCell` gives read-after-write |
| `Store.CellInRange` | growthmindset.py:36-42 | in a well-formed store each cell is in `[0, verses]`, and a surah never written reads 0 |
| `Store.StoreCell` | growthmindset.py:42 | after one slider store that cell reads the slider's value and every other cell of every week reads as before |
| `Store.SliderPassStep` | growthmindset.py:31-42 | the loop after `i + 1` surahs is the loop after `i` followed by one store of a catalogue surah |
| `Store.PutKeepsWellFormed` | growthmindset.py:36-42 | storing a slider value, which lies in `[0, verses]`, keeps every count in range and every key unique |
| `Store.AfterSliders` | growthmindset.py:31-42 | the store after the slider loop: the same weeks, and every week but the selected one unchanged; the selected week's reads are stated by the `Store.SliderPass*` lemmas |
| `Store.SliderPassWrites` | growthmindset.py:31-42 | after the slider loop, each surah of the current week reads its slider's value |
| `Store.SliderPassFrame` | growthmindset.py:31-42 | the slider loop leaves every other week, and every key outside the catalogue, unchanged |
| `Store.SliderPassDefaults` | growthmindset.py:36-42 | sliders left at their default (`progress[week].get(surah, 0)`) change no count |
| `Store.SliderPassLaterTime` | growthmindset.py:31-42 | a pass on a week already laid out in catalogue order keeps that order, each surah now holding its new slider value |
| `Store.SliderPassCatalogueOrder` | growthmindset.py:31-42 | after any slider pass, first or later, the week's keys, and so the report's lines, follow the catalogue order |
| `Store.SliderPassFirstTime` | growthmindset.py:31-42 | a week written for the first time holds every surah in catalogue order with its slider value |
| `Report.Header` | growthmindset.py:119 | the report header `f"Week {current_week} - Reflection: {reflection}\n\nProgress:\n"`: the reflection appears verbatim between the week part and the 12-character progress heading; `Report.HeaderDeterminesWeek` shows nothing is lost |
| `Report.Line` | growthmindset.py:121 | one report line `f"{surah}: {v} verses\n"`: the surah name, then `": "`, then the count's digits, then `" verses\n"` |
| `Report.LineShowsCount` | growthmindset.py:121 | the text between `": "` and `" verses\n"` in a line parses back to the entry's count |
| `Report.Lines` | growthmindset.py:120-121 | the lines for `d.items()`: empty exactly when the dict is, and otherwise ending with `" verses\n"`; their layout is stated by `Report.LinesSplit` |
| `Report.ReportText` | growthmindset.py:119-121 | the whole report: the reflection appears verbatim after the week, and the report is just the header exactly when the week's dict is empty |
| `Report.LinesConcat` | growthmindset.py:120-121 | the report lines of two runs of entries are the two texts one after the other |
| `Report.LinesSingle` | growthmindset.py:121 | one entry gives exactly its line `"{surah}: {v} verses\n"` |
| `Report.LinesSplit` | growthmindset.py:120-121 | each entry of the week's dict contributes its own line at its own position |
| `Report.HeaderDeterminesWeek` | growthmindset.py:119 | for weeks 1 to 4 the header determines both the week and the reflection text |
| `Tracker.Tracker.constructor` | growthmindset.py:6-9 | the first run holds exactly weeks 1 to 4, each an empty dict, and no reflections |
| `Tracker.Tracker.SliderDefault` | growthmindset.py:39 | the slider's starting value is the stored count, in `[0, verses]`, and 0 for a surah never stored |
| `Tracker.Tracker.SetCell` | growthmindset.py:42 | one slider store replaces exactly the `(week, surah)` cell, keeps the store well formed and leaves the reflections alone |
| `Tracker.Tracker.StoreSliders` | growthmindset.py:31-42 | the slider loop leaves the store equal to the old one with the current week's dict updated surah by surah, and keeps it well formed |
| `Tracker.Tracker.SetReflection` | growthmindset.py:72 | the current week's reflection becomes the text; every other week's text and the progress store are unchanged |
| `Tracker.Tracker.ReflectionOf` | growthmindset.py:95 | `reflections.get(week, "")`: the stored text, or the empty string for a week with none |
| `Tracker.Tracker.SaveData` | growthmindset.py:90-96 | the record carries the given date, the week, that week's dict and its reflection, `""` when none was stored |
| `Tracker.Tracker.BuildReport` | growthmindset.py:118-121 | the report is the header, carrying the week's stored reflection, followed by one line per entry of the week's dict, in dict order |
| `Tracker.Tracker.Rerun` | growthmindset.py:27-87 | one page run stores the sliders and the reflection for the selected week and returns the tier and bar ratios of the updated store |
| `Scenarios.OnlyCellTotals` | growthmindset.py:54-77 | a single in-range count in one week is both that surah's total and the overall total |
| `Scenarios.FreshSession` | growthmindset.py:6-9 | in a fresh session every cell and every total is 0, and the tier is the lowest band |
| `Scenarios.HalfOfAlHujurat` | growthmindset.py:54-87 | 9 of Al-Hujurat's 18 verses gives a 9/18 bar and a 9/548 total, which is in the lowest band |
| `Scenarios.YaseenCountedTwice` | growthmindset.py:54-62 | Yaseen's 83 verses stored in two weeks total 166, more than 83, with a bar of 166/83: totals are not capped |
| `Scenarios.ExactQuarter` | growthmindset.py:77-82 | a total of exactly a quarter of 548 falls in the second band, not the first |
| `Scenarios.EverySurahComplete` | growthmindset.py:75-87 | every surah fully memorised in one week gives ratio 1 and the top band |

## Left out

- Rendering: title, headers, columns, metrics, progress bars, the bar chart, balloons, messages, `st.json` and `st.write` (growthmindset.py:22-24, 30-33, 44-47, 64, 79-87, 97-98, 113-115). The tier (`Aggregate.Tier`) stands for the message shown, and `Aggregate.Percentages` for the bar chart's data.
- The per-surah completion readout `memorized / verses` (growthmindset.py:45-47) is only displayed. It is the current week's cell over the verse count and is not modelled separately.
- The pandas DataFrame (growthmindset.py:58-64) is a foreign library. Its "Memorized (%)" column is modelled as `Aggregate.Percentages`.
- File output: the CSV append (growthmindset.py:101-109), the JSON dump (growthmindset.py:111-112) and `st.download_button` (growthmindset.py:122). None of the three is modelled, because all are file I/O. Their reachability is as follows:
  - `import csv` (growthmindset.py:99) sits inside the "Save Progress" branch, while the `with open` at line 101 is at top level.
  - In a rerun where Save was not just pressed, `csv` is unbound. Line 102 raises `NameError` after the log file has been opened for append, so nothing is written and the script stops there.
  - So the JSON dump, the past-progress view (growthmindset.py:113-115) and the "Download Weekly Report" branch (growthmindset.py:118-122) run only in a rerun where Save was pressed. In that rerun the download button returns False.
  - When the CSV row is written, it takes `surah` and `memorized` left over from the slider loop, that is, the last catalogue surah.
- `Tracker.Tracker.BuildReport` models growthmindset.py:119-121, which the script as written never reaches (see the previous line). The state changes that `Tracker.Tracker.Rerun` models (growthmindset.py:27-87) happen before line 101 and are unaffected.
- `date.today()` (growthmindset.py:92, 104) is nondeterministic. The save record takes the date as an opaque string parameter.
- Widget behaviour: the selectbox, slider, text area and buttons are inputs. The model takes their values as parameters and assumes the slider returns a value in `[0, verses]`. Streamlit keeps per-key widget state (growthmindset.py:40), and the text area has no key. Which value a widget returns after a week switch is up to Streamlit and is not modelled.
- The session-state runtime is not modelled. Streamlit's reruns are the explicit method `Tracker.Tracker.Rerun`, and session state is the object's two fields.
- `save_data["progress"]` is the week's dict object itself, so later stores would show through it. The model copies the value, so aliasing is not captured.
- Floating point: `achievement_level` and the bar values are Python floats. The model uses exact ratios. The thresholds 0.25, 0.5 and 0.75 are exact binary fractions. For totals of this size, a ratio differs from a threshold by at least 1/2192, far more than double rounding can move it. So the float comparisons and the exact ones agree, but this is argued here, not proved.
- The `:.0%` formatting of the completion readout (growthmindset.py:46) is display only.
- Line 1 reads `gitimport streamlit as st`, which is a syntax error. It has no bearing on the logic.
- `Tracker.Tracker.StoreSliders`: its contract gives the new store as `Store.AfterSliders` of the old one. What that store reads is stated by the `Store.SliderPass*` lemmas, not in the method's own ensures.

=== FILE: aggregate.dfy ===
/**
  Everything the tracker derives from the progress store: per-surah totals over
  the four weeks, the per-surah percentages shown in the bar chart, the overall
  achievement ratio and its four-way tier.
  Ratios are kept as numerator/denominator pairs; the tier thresholds are decided
  by integer cross-multiplication and stated against exact real division.
 */
module Aggregate {
  import opened OrderedDict
  import opened Catalogue
  import opened Store

  /** `sum(progress[week].get(surah, 0) for week in range(from, 5))`. */
  function SumWeeks(p: Progress, name: string, from: int): int
    requires 1 <= from <= 5 && HasAllWeeks(p)
    decreases 5 - from
  {
    if from == 5 then 0 else Cell(p, from, name) + SumWeeks(p, name, from + 1)
  }

  /** `total_progress[surah]`: the surah's counts summed over weeks 1 to 4, with no cap. */
  function UnitTotal(p: Progress, name: string): (total: int)
    requires HasAllWeeks(p)
    ensures total == Cell(p, 1, name) + Cell(p, 2, name) + Cell(p, 3, name) + Cell(p, 4, name)
  {
    SumWeeks(p, name, 1)
  }

  /** `total_progress`: one entry per catalogue surah, in catalogue order. */
  function TotalProgress(p: Progress): (t: Dict)
    requires HasAllWeeks(p)
    ensures Keys(t) == Names()
  {
    seq(|Surahs|, i requires 0 <= i < |Surahs| => Entry(Surahs[i].key, UnitTotal(p, Surahs[i].key)))
  }

  /** A ratio `num / den`, kept exact. */
  datatype Ratio = Ratio(num: int, den: int)

  /** The bar chart's "Memorized (%)" column: `total_progress[surah] / surahs[surah]` per surah. */
  function Percentages(p: Progress): (bars: seq<Ratio>)
    requires HasAllWeeks(p)
    ensures |bars| == |Surahs|
    ensures forall i :: 0 <= i < |bars| ==> bars[i].den == Surahs[i].value > 0
  {
    CatalogueWellFormed();
    var totals := TotalProgress(p);
    seq(|Surahs|, i requires 0 <= i < |Surahs| => Ratio(Get(totals, Surahs[i].key, 0), Surahs[i].value))
  }

  /** `total_memorized = sum(total_progress.values())`. */
  function TotalMemorized(p: Progress): (total: int)
    requires HasAllWeeks(p)
    ensures total == SumFirstTotals(p, |Surahs|)
  {
    SumFirstTotalsIsPrefixSum(p, |Surahs|);
    assert TotalProgress(p)[..|Surahs|] == TotalProgress(p);
    SumValues(TotalProgress(p))
  }

  /** The four motivational bands, lowest first. */
  datatype Tier = Beginning | Progressing | Focused | AlmostThere

  function Rank(t: Tier): nat
  {
    match t
    case Beginning => 0
    case Progressing => 1
    case Focused => 2
    case AlmostThere => 3
  }

  /** `memorized / verses` as an exact real. */
  ghost function RealRatio(memorized: int, verses: int): real
    requires verses > 0
  {
    memorized as real / verses as real
  }

  /**
    The `if/elif` chain on `achievement_level = memorized / verses`:
    below 0.25, below 0.5, below 0.75, otherwise; each lower bound is inclusive.
   */
  function Classify(memorized: int, verses: int): (t: Tier)
    requires verses > 0
    ensures t == Beginning <==> RealRatio(memorized, verses) < 0.25
    ensures t == Progressing <==> 0.25 <= RealRatio(memorized, verses) < 0.5
    ensures t == Focused <==> 0.5 <= RealRatio(memorized, verses) < 0.75
    ensures t == AlmostThere <==> 0.75 <= RealRatio(memorized, verses)
  {
    RatioBelow(memorized, verses, 1, 4);
    RatioBelow(memorized, verses, 1, 2);
    RatioBelow(memorized, verses, 3, 4);
    if 4 * memorized < verses then Beginning
    else if 2 * memorized < verses then Progressing
    else if 4 * memorized < 3 * verses then Focused
    else AlmostThere
  }

  /** The overall tier of the store: `total_memorized / total_verses` classified. */
  function Achievement(p: Progress): (t: Tier)
    requires HasAllWeeks(p)
    ensures t == Beginning <==> RealRatio(TotalMemorized(p), TotalVerses()) < 0.25
    ensures t == Progressing <==> 0.25 <= RealRatio(TotalMemorized(p), TotalVerses()) < 0.5
    ensures t == Focused <==> 0.5 <= RealRatio(TotalMemorized(p), TotalVerses()) < 0.75
    ensures t == AlmostThere <==> 0.75 <= RealRatio(TotalMemorized(p), TotalVerses())
  {
    Classify(TotalMemorized(p), TotalVerses())
  }

  /** Comparing `m / v` with `a / b` is comparing `b * m` with `a * v`. */
  lemma RatioBelow(m: int, v: int, a: int, b: int)
    requires v > 0 && b > 0
    ensures RealRatio(m, v) < a as real / b as real <==> b * m < a * v
  {
    var q := RealRatio(m, v);
    assert q * v as real == m as real;
    var t := a as real / b as real;
    assert t * b as real == a as real;
    if q < t {
      assert q * (v * b) as real < t * (v * b) as real;
    } else {
      assert q * (v * b) as real >= t * (v * b) as real;
    }
    assert q * (v * b) as real == (b * m) as real;
    assert t * (v * b) as real == (a * v) as real;
  }

  /** A larger total never falls into a lower band. */
  lemma ClassifyMonotone(m1: int, m2: int, verses: int)
    requires verses > 0 && m1 <= m2
    ensures Rank(Classify(m1, verses)) <= Rank(Classify(m2, verses))
  {
  }

  /** Each threshold belongs to the band above it. */
  lemma ClassifyBoundaries(verses: int)
    requires verses > 0 && verses % 4 == 0
    ensures Classify(verses / 4 - 1, verses) == Beginning
    ensures Classify(verses / 4, verses) == Progressing
    ensures Classify(verses / 2, verses) == Focused
    ensures Classify(3 * verses / 4, verses) == AlmostThere
  {
  }


  /** A total is never negative and at most four full memorisations: it is not capped at the verse count. */
  lemma UnitTotalBounds(p: Progress, name: string)
    requires WellFormed(p) && InCatalogue(name)
    ensures 0 <= UnitTotal(p, name) <= 4 * VersesOf(name)
  {
    CellInRange(p, 1, name);
    CellInRange(p, 2, name);
    CellInRange(p, 3, name);
    CellInRange(p, 4, name);
  }

  /** `total_progress[surah]` is the surah's four-week total. */
  lemma TotalProgressGet(p: Progress, i: nat)
    requires HasAllWeeks(p) && i < |Surahs|
    ensures Get(TotalProgress(p), Surahs[i].key, 0) == UnitTotal(p, Surahs[i].key)
  {
    CatalogueWellFormed();
    var t := TotalProgress(p);
    assert NoDupKeys(t) by {
      assert Keys(t) == Names();
      forall a, b | 0 <= a < b < |t| ensures t[a].key != t[b].key {
        assert t[a].key == Names()[a] && t[b].key == Names()[b];
      }
    }
    GetAt(t, i, 0);
  }

  /** Each bar is the surah's total over its verse count. */
  lemma PercentagesMeaning(p: Progress, i: nat)
    requires HasAllWeeks(p) && i < |Surahs|
    ensures Percentages(p)[i] == Ratio(UnitTotal(p, Surahs[i].key), Surahs[i].value)
  {
    TotalProgressGet(p, i);
  }

  /** In a well-formed store a bar lies between 0 and 4: the total may run up to four times the count. */
  lemma PercentagesBounds(p: Progress, i: nat)
    requires WellFormed(p) && i < |Surahs|
    ensures 0 <= Percentages(p)[i].num <= 4 * Percentages(p)[i].den
  {
    assert InCatalogue(Surahs[i].key) by {
      assert Names()[i] == Surahs[i].key;
    }
    PercentagesMeaning(p, i);
    UnitTotalBounds(p, Surahs[i].key);
  }

  /** The sum of the first `n` catalogue totals. */
  function SumFirstTotals(p: Progress, n: nat): int
    requires HasAllWeeks(p) && n <= |Surahs|
  {
    if n == 0 then 0 else SumFirstTotals(p, n - 1) + UnitTotal(p, Surahs[n - 1].key)
  }

  lemma {:induction false} SumValuesPrefix(d: Dict, n: nat)
    requires n < |d|
    ensures SumValues(d[..n + 1]) == SumValues(d[..n]) + d[n].value
  {
    if n > 0 {
      assert d[..n + 1][1..] == d[1..][..n];
      assert d[..n][1..] == d[1..][..n - 1];
      SumValuesPrefix(d[1..], n - 1);
    }
  }

  lemma {:induction false} SumFirstTotalsIsPrefixSum(p: Progress, n: nat)
    requires HasAllWeeks(p) && n <= |Surahs|
    ensures SumFirstTotals(p, n) == SumValues(TotalProgress(p)[..n])
  {
    if n > 0 {
      SumFirstTotalsIsPrefixSum(p, n - 1);
      SumValuesPrefix(TotalProgress(p), n - 1);
    }
  }

  lemma {:induction false} SumFirstTotalsBounds(p: Progress, n: nat)
    requires WellFormed(p) && n <= |Surahs|
    ensures 0 <= SumFirstTotals(p, n) <= 4 * SumValues(Surahs[..n])
  {
    if n > 0 {
      CatalogueWellFormed();
      SumFirstTotalsBounds(p, n - 1);
      assert InCatalogue(Surahs[n - 1].key) by {
        assert Names()[n - 1] == Surahs[n - 1].key;
      }
      UnitTotalBounds(p, Surahs[n - 1].key);
      SumValuesPrefix(Surahs, n - 1);
    }
  }

  /** The overall ratio lies between 0 and 4: never negative, not capped at 1. */
  lemma TotalMemorizedBounds(p: Progress)
    requires WellFormed(p)
    ensures 0 <= TotalMemorized(p) <= 4 * TotalVerses()
  {
    SumFirstTotalsBounds(p, |Surahs|);
    assert Surahs[..|Surahs|] == Surahs;
  }

}

=== FILE: catalogue.dfy ===
/**
  The fixed surah catalogue: a dict from surah name to its number of verses,
  in the order the tracker lists the surahs.
 */
module Catalogue {
  import opened OrderedDict

  /** `surahs`: six entries, constant for the life of the process. */
  const Surahs: Dict := [
    Entry("Al-Hujurat", 18),
    Entry("Yaseen", 83),
    Entry("Al-Waqiah", 96),
    Entry("An-Nisa", 176),
    Entry("An-Noor", 64),
    Entry("Yusuf", 111)
  ]

  /** `surahs.keys()`, in catalogue order. */
  function Names(): seq<string>
  {
    Keys(Surahs)
  }

  predicate InCatalogue(name: string)
  {
    name in Names()
  }

  /** `surahs[name]`; only ever asked of a catalogue name. */
  function VersesOf(name: string): (n: int)
    requires InCatalogue(name)
    ensures n > 0
    ensures forall i :: 0 <= i < |Surahs| && Surahs[i].key == name ==> n == Surahs[i].value
  {
    CatalogueWellFormed();
    assert exists i :: 0 <= i < |Surahs| && Surahs[i].key == name;
    var i :| 0 <= i < |Surahs| && Surahs[i].key == name;
    GetAt(Surahs, i, 0);
    Get(Surahs, name, 0)
  }

  /** `sum(surahs.values())`. */
  function TotalVerses(): (total: int)
    ensures total == 548
  {
    SumValues(Surahs)
  }

  /** Catalogue names are distinct and every surah has at least one verse. */
  lemma CatalogueWellFormed()
    ensures |Surahs| == 6
    ensures NoDupKeys(Surahs) && Distinct(Names())
    ensures forall i :: 0 <= i < |Surahs| ==> Surahs[i].value > 0
  {
  }
}

=== FILE: decimal.dfy ===
/**
  Python's rendering of an `int` inside an f-string (`str(n)`): an optional minus
  sign and the decimal digits with no leading zero, and the parse that undoes it.
 */
module Decimal {

  datatype Option<T> = None | Some(value: T)

  predicate IsDigit(c: char)
  {
    '0' <= c <= '9'
  }

  predicate AllDigits(s: string)
  {
    forall i :: 0 <= i < |s| ==> IsDigit(s[i])
  }

  function DigitChar(d: int): (c: char)
    requires 0 <= d < 10
    ensures IsDigit(c) && c as int - '0' as int == d
  {
    ('0' as int + d) as char
  }

  /** The digits of `n`, most significant first. */
  function NatDigits(n: nat): string
    decreases n
  {
    if n < 10 then [DigitChar(n)] else NatDigits(n / 10) + [DigitChar(n % 10)]
  }

  /** `str(n)`. */
  function Format(n: int): (s: string)
    ensures |s| >= 1
    ensures s[0] == '-' <==> n < 0
  {
    NatDigitsShape(if n < 0 then -n else n);
    if n < 0 then "-" + NatDigits(-n) else NatDigits(n)
  }

  /** The number a string of decimal digits denotes. */
  function DigitsValue(s: string): nat
    requires AllDigits(s)
    decreases |s|
  {
    if s == [] then 0
    else 10 * DigitsValue(s[..|s| - 1]) + (s[|s| - 1] as int - '0' as int)
  }

  /** `int(s)` on the canonical decimal strings; anything else is refused. */
  function Parse(s: string): Option<int>
  {
    if |s| >= 2 && s[0] == '-' && AllDigits(s[1..]) && s[1] != '0' then Some(0 - DigitsValue(s[1..]) as int)
    else if |s| >= 1 && AllDigits(s) && (s[0] != '0' || |s| == 1) then Some(DigitsValue(s))
    else None
  }

  /** The digits are a nonempty string of decimal digits, with no leading zero. */
  lemma {:induction false} NatDigitsShape(n: nat)
    ensures |NatDigits(n)| >= 1 && AllDigits(NatDigits(n))
    ensures NatDigits(n)[0] == '0' <==> n == 0
    decreases n
  {
    if n >= 10 {
      NatDigitsShape(n / 10);
    }
  }

  lemma {:induction false} DigitsRoundTrip(n: nat)
    ensures AllDigits(NatDigits(n)) && DigitsValue(NatDigits(n)) == n
    decreases n
  {
    NatDigitsShape(n);
    if n >= 10 {
      var s := NatDigits(n);
      DigitsRoundTrip(n / 10);
      assert s[..|s| - 1] == NatDigits(n / 10);
    }
  }

  /** Formatting loses nothing: parsing the text gives the number back. */
  lemma FormatRoundTrip(n: int)
    ensures Parse(Format(n)) == Some(n)
  {
    if n < 0 {
      assert Format(n)[1..] == NatDigits(-n);
      NatDigitsShape(-n);
      DigitsRoundTrip(-n);
    } else {
      NatDigitsShape(n);
      DigitsRoundTrip(n);
    }
  }

  /** Distinct numbers are rendered as distinct strings. */
  lemma FormatInjective(m: int, n: int)
    requires Format(m) == Format(n)
    ensures m == n
  {
    FormatRoundTrip(m);
    FormatRoundTrip(n);
  }
}

=== FILE: ordered_dict.dfy ===
/**
  A Python `dict` with string keys and integer values, as the tracker uses it.
  A dict remembers insertion order (its `items()` iterate in that order), so it is
  modelled as a sequence of entries in which each key appears at most once.
  Reading a missing key with `get` yields the default; assigning to an existing
  key keeps its position, assigning to a new key appends it.
 */
module OrderedDict {

  /** One `key: value` pair of a dictionary. */
  datatype Entry = Entry(key: string, value: int)

  type Dict = seq<Entry>

  /** The keys of `d`, in iteration order. */
  function Keys(d: Dict): seq<string>
  {
    seq(|d|, i requires 0 <= i < |d| => d[i].key)
  }

  /** No key occurs twice: the invariant every Python dict keeps. */
  ghost predicate NoDupKeys(d: Dict)
  {
    forall i, j :: 0 <= i < j < |d| ==> d[i].key != d[j].key
  }

  ghost predicate Distinct(ks: seq<string>)
  {
    forall i, j :: 0 <= i < j < |ks| ==> ks[i] != ks[j]
  }

  /** `d.get(k, default)`. */
  function Get(d: Dict, k: string, default: int): (r: int)
    ensures k in Keys(d) ==> Entry(k, r) in d
  {
    if d == [] then default
    else if d[0].key == k then d[0].value
    else KeysTail(d); Get(d[1..], k, default)
  }

  /** `d[k] = v`: an existing key keeps its place and takes the new value; a new key goes last. */
  function Put(d: Dict, k: string, v: int): (r: Dict)
    ensures |r| == if k in Keys(d) then |d| else |d| + 1
  {
    if d == [] then [Entry(k, v)]
    else
      KeysTail(d);
      if d[0].key == k then [Entry(k, v)] + d[1..]
      else [d[0]] + Put(d[1..], k, v)
  }

  /** The assignments `d[ks[0]] = vs[0]`, ..., `d[ks[n-1]] = vs[n-1]`, in that order. */
  function PutAll(d: Dict, ks: seq<string>, vs: seq<int>): (r: Dict)
    requires |ks| == |vs|
    decreases |ks|
  {
    if ks == [] then d
    else Put(PutAll(d, ks[..|ks| - 1], vs[..|vs| - 1]), ks[|ks| - 1], vs[|vs| - 1])
  }

  /** `sum(d.values())`. */
  function SumValues(d: Dict): (total: int)
    ensures (forall i :: 0 <= i < |d| ==> d[i].value >= 0) ==> total >= 0
  {
    if d == [] then 0 else d[0].value + SumValues(d[1..])
  }

  lemma KeysTail(d: Dict)
    requires d != []
    ensures Keys(d) == [d[0].key] + Keys(d[1..])
  {
  }

  /** A key the dict does not hold reads as the default. */
  lemma {:induction false} GetAbsent(d: Dict, k: string, default: int)
    requires k !in Keys(d)
    ensures Get(d, k, default) == default
  {
    if d != [] {
      KeysTail(d);
      GetAbsent(d[1..], k, default);
    }
  }

  /** In a dict without repeated keys, `get` finds the value stored with the key. */
  lemma {:induction false} GetAt(d: Dict, i: nat, default: int)
    requires NoDupKeys(d) && i < |d|
    ensures Get(d, d[i].key, default) == d[i].value
  {
    if i > 0 {
      GetAt(d[1..], i - 1, default);
    }
  }

  /** After `d[k] = v`, `d.get(k, x)` is `v`. */
  lemma {:induction false} PutGetSame(d: Dict, k: string, v: int, x: int)
    ensures Get(Put(d, k, v), k, x) == v
  {
    if d != [] && d[0].key != k {
      PutGetSame(d[1..], k, v, x);
    }
  }

  /** `d[k] = v` leaves what every other key reads unchanged. */
  lemma {:induction false} PutGetOther(d: Dict, k: string, v: int, k': string, x: int)
    requires k' != k
    ensures Get(Put(d, k, v), k', x) == Get(d, k', x)
  {
    if d != [] && d[0].key != k {
      PutGetOther(d[1..], k, v, k', x);
    }
  }

  /** `d[k] = v` keeps the key order; a new key is appended. */
  lemma {:induction false} PutKeys(d: Dict, k: string, v: int)
    ensures Keys(Put(d, k, v)) == if k in Keys(d) then Keys(d) else Keys(d) + [k]
  {
    if d != [] {
      KeysTail(d);
      if d[0].key != k {
        PutKeys(d[1..], k, v);
        KeysTail(Put(d, k, v));
      } else {
        KeysTail(Put(d, k, v));
      }
    }
  }

  /** Every entry after `d[k] = v` is an old entry or the new pair. */
  lemma {:induction false} PutEntries(d: Dict, k: string, v: int)
    ensures forall e :: e in Put(d, k, v) ==> e in d || e == Entry(k, v)
  {
    if d != [] && d[0].key != k {
      PutEntries(d[1..], k, v);
    }
  }

  /** `d[k] = v` never duplicates a key. */
  lemma PutNoDup(d: Dict, k: string, v: int)
    requires NoDupKeys(d)
    ensures NoDupKeys(Put(d, k, v))
  {
    var r := Put(d, k, v);
    var ks, rs := Keys(d), Keys(Put(d, k, v));
    PutKeys(d, k, v);
    assert Distinct(ks) by {
      forall i, j | 0 <= i < j < |ks| ensures ks[i] != ks[j] {
        assert ks[i] == d[i].key && ks[j] == d[j].key;
      }
    }
    assert Distinct(rs) by {
      if k !in ks {
        assert rs == ks + [k];
        forall i, j | 0 <= i < j < |rs| ensures rs[i] != rs[j] {
          if j == |ks| {
            assert rs[i] == ks[i] && ks[i] in ks;
          }
        }
      }
    }
    forall i, j | 0 <= i < j < |r| ensures r[i].key != r[j].key {
      assert r[i].key == rs[i] && r[j].key == rs[j];
    }
  }

  /** A key the dict does not hold is appended at the end. */
  lemma {:induction false} PutAppends(d: Dict, k: string, v: int)
    requires k !in Keys(d)
    ensures Put(d, k, v) == d + [Entry(k, v)]
  {
    if d != [] {
      KeysTail(d);
      PutAppends(d[1..], k, v);
    }
  }

  /** After the assignments of `PutAll`, a key among `ks` reads as the value written last for it. */
  lemma {:induction false} PutAllGetWritten(d: Dict, ks: seq<string>, vs: seq<int>, i: nat, x: int)
    requires |ks| == |vs| && Distinct(ks) && i < |ks|
    ensures Get(PutAll(d, ks, vs), ks[i], x) == vs[i]
    decreases |ks|
  {
    var n := |ks| - 1;
    if i == n {
      PutGetSame(PutAll(d, ks[..n], vs[..n]), ks[n], vs[n], x);
    } else {
      assert ks[..n][i] == ks[i];
      PutAllGetWritten(d, ks[..n], vs[..n], i, x);
      PutGetOther(PutAll(d, ks[..n], vs[..n]), ks[n], vs[n], ks[i], x);
    }
  }

  /** A key outside `ks` reads after `PutAll` as it did before. */
  lemma {:induction false} PutAllGetOther(d: Dict, ks: seq<string>, vs: seq<int>, k: string, x: int)
    requires |ks| == |vs| && k !in ks
    ensures Get(PutAll(d, ks, vs), k, x) == Get(d, k, x)
    decreases |ks|
  {
    if ks != [] {
      var n := |ks| - 1;
      assert k !in ks[..n];
      PutAllGetOther(d, ks[..n], vs[..n], k, x);
      PutGetOther(PutAll(d, ks[..n], vs[..n]), ks[n], vs[n], k, x);
    }
  }

  /** Writing into an empty dict keys that are all distinct lays them out in the order written. */
  /** Assignments that only overwrite keys the dict already holds leave its key order as it was. */
  lemma {:induction false} PutAllKeysPresent(d: Dict, ks: seq<string>, vs: seq<int>)
    requires |ks| == |vs|
    requires forall i :: 0 <= i < |ks| ==> ks[i] in Keys(d)
    ensures Keys(PutAll(d, ks, vs)) == Keys(d)
    decreases |ks|
  {
    if ks != [] {
      var n := |ks| - 1;
      assert forall i :: 0 <= i < n ==> ks[..n][i] == ks[i];
      PutAllKeysPresent(d, ks[..n], vs[..n]);
      PutKeys(PutAll(d, ks[..n], vs[..n]), ks[n], vs[n]);
    }
  }

  lemma {:induction false} PutAllIntoEmpty(ks: seq<string>, vs: seq<int>)
    requires |ks| == |vs| && Distinct(ks)
    ensures |PutAll([], ks, vs)| == |ks|
    ensures forall i :: 0 <= i < |ks| ==> PutAll([], ks, vs)[i] == Entry(ks[i], vs[i])
    decreases |ks|
  {
    if ks != [] {
      var n := |ks| - 1;
      PutAllIntoEmpty(ks[..n], vs[..n]);
      var prev := PutAll([], ks[..n], vs[..n]);
      assert Keys(prev) == ks[..n];
      assert ks[n] !in ks[..n];
      PutAppends(prev, ks[n], vs[n]);
    }
  }

  /**
    Writing back the value every key already reads (the default where it is absent)
    changes no value that `get` can see, though absent keys become present.
   */
  lemma {:induction false} PutAllUnchangedValues(d: Dict, ks: seq<string>, vs: seq<int>, default: int, k: string)
    requires |ks| == |vs|
    requires forall i :: 0 <= i < |ks| ==> vs[i] == Get(d, ks[i], default)
    ensures Get(PutAll(d, ks, vs), k, default) == Get(d, k, default)
    decreases |ks|
  {
    if ks != [] {
      var n := |ks| - 1;
      var prev := PutAll(d, ks[..n], vs[..n]);
      PutAllUnchangedValues(d, ks[..n], vs[..n], default, k);
      if k == ks[n] {
        PutGetSame(prev, ks[n], vs[n], default);
        PutAllUnchangedValues(d, ks[..n], vs[..n], default, ks[n]);
      } else {
        PutGetOther(prev, ks[n], vs[n], k, default);
      }
    }
  }
}

=== FILE: report.dfy ===
/**
  The weekly report text offered for download: a header naming the week and the
  reflection, then one line per entry of that week's progress dict, in dict order.
 */
module Report {
  import opened OrderedDict
  import opened Decimal

  /** `f"Week {week} - Reflection: {reflection}\n\nProgress:\n"`. */
  function Header(week: int, reflection: string): (h: string)
    ensures |h| == |Format(week)| + |reflection| + 32
    ensures h[5 + |Format(week)| + 15..|h| - 12] == reflection
  {
    "Week " + Format(week) + " - Reflection: " + reflection + "\n\nProgress:\n"
  }

  /** `f"{surah}: {v} verses\n"`. */
  function Line(e: Entry): (line: string)
    ensures |line| == |e.key| + |Format(e.value)| + 10
    ensures line[..|e.key|] == e.key
    ensures line[|e.key|..|e.key| + 2] == ": "
    ensures line[|line| - 8..] == " verses\n"
  {
    e.key + ": " + Format(e.value) + " verses\n"
  }

  /** A report line shows its count: the text between `": "` and `" verses"` parses back to it. */
  lemma LineShowsCount(e: Entry)
    ensures Parse(Line(e)[|e.key| + 2..|Line(e)| - 8]) == Some(e.value)
  {
    assert Line(e)[|e.key| + 2..|Line(e)| - 8] == Format(e.value);
    FormatRoundTrip(e.value);
  }

  /** The strings of `parts` joined end to end. */
  function Concat(parts: seq<string>): string
    decreases |parts|
  {
    if parts == [] then "" else Concat(parts[..|parts| - 1]) + parts[|parts| - 1]
  }

  /** The lines for `d.items()`, in dict order. */
  function Lines(d: Dict): (text: string)
    ensures d == [] <==> text == ""
    ensures d != [] ==> |text| >= 8 && text[|text| - 8..] == " verses\n"
  {
    var parts := seq(|d|, i requires 0 <= i < |d| => Line(d[i]));
    if d == [] then "" else
      assert parts[|parts| - 1] == Line(d[|d| - 1]);
      Concat(parts)
  }

  /** The whole report for a week. */
  function ReportText(week: int, reflection: string, d: Dict): (report: string)
    ensures |report| >= |Format(week)| + |reflection| + 32
    ensures report[5 + |Format(week)| + 15..5 + |Format(week)| + 15 + |reflection|] == reflection
    ensures d == [] <==> report == Header(week, reflection)
  {
    var h := Header(week, reflection);
    assert h[..|h| - 12] == (h + Lines(d))[..|h| - 12];
    h + Lines(d)
  }

  lemma {:induction false} ConcatAppend(p1: seq<string>, p2: seq<string>)
    ensures Concat(p1 + p2) == Concat(p1) + Concat(p2)
    decreases |p2|
  {
    if p2 == [] {
      assert p1 + p2 == p1;
    } else {
      var n := |p2| - 1;
      var p := p1 + p2;
      assert p[..|p| - 1] == p1 + p2[..n];
      ConcatAppend(p1, p2[..n]);
    }
  }

  /** The lines of two consecutive runs of entries are the two texts one after the other. */
  lemma LinesConcat(d1: Dict, d2: Dict)
    ensures Lines(d1 + d2) == Lines(d1) + Lines(d2)
  {
    var l1 := seq(|d1|, i requires 0 <= i < |d1| => Line(d1[i]));
    var l2 := seq(|d2|, i requires 0 <= i < |d2| => Line(d2[i]));
    var d := d1 + d2;
    assert seq(|d|, i requires 0 <= i < |d| => Line(d[i])) == l1 + l2;
    ConcatAppend(l1, l2);
  }

  lemma LinesSingle(e: Entry)
    ensures Lines([e]) == Line(e)
  {
    var d := [e];
    var one := seq(|d|, i requires 0 <= i < |d| => Line(d[i]));
    assert one == [Line(e)];
    assert one[..0] == [];
    assert Concat(one) == Concat([]) + Line(e);
  }

  /** Each entry of the dict gives exactly its own line, at its own place. */
  lemma LinesSplit(d: Dict, i: nat)
    requires i < |d|
    ensures Lines(d) == Lines(d[..i]) + Line(d[i]) + Lines(d[i + 1..])
  {
    var front, mid, back := d[..i], [d[i]], d[i + 1..];
    assert d == (front + mid) + back;
    LinesConcat(front + mid, back);
    LinesConcat(front, mid);
    LinesSingle(d[i]);
  }

  /** Appending the next entry's line to a partial report extends it by one entry. */
  lemma ReportStep(h: string, d: Dict, i: nat)
    requires i < |d|
    ensures h + Lines(d[..i]) + Line(d[i]) == h + Lines(d[..i + 1])
  {
    assert d[..i + 1] == d[..i] + [d[i]];
    LinesConcat(d[..i], [d[i]]);
    LinesSingle(d[i]);
  }

  /** For the selectable weeks 1 to 4, the header gives back the week and the reflection that went into it. */
  lemma HeaderDeterminesWeek(w1: int, r1: string, w2: int, r2: string)
    requires 1 <= w1 <= 4 && 1 <= w2 <= 4
    requires Header(w1, r1) == Header(w2, r2)
    ensures w1 == w2 && r1 == r2
  {
    var h1, h2 := Header(w1, r1), Header(w2, r2);
    var n := 1;
    assert |Format(w1)| == 1 && |Format(w2)| == 1;
    assert Format(w1) == h1[5..5 + n];
    assert Format(w2) == h2[5..5 + n];
    FormatInjective(w1, w2);
    assert r1 == h1[5 + n + 15..|h1| - 12];
    assert r2 == h2[5 + n + 15..|h2| - 12];
  }
}

=== FILE: scenarios.dfy ===
/**
  Concrete stores and what the aggregator makes of them: the defaults of a fresh
  session, a half-memorised surah, a fully memorised catalogue, a surah counted
  in two weeks (its total passes its verse count), and a store exactly on the
  0.25 threshold.
 */
module Scenarios {
  import opened OrderedDict
  import opened Catalogue
  import opened Store
  import opened Aggregate

  /** A store in which only the catalogue's i-th surah has a nonzero total. */
  lemma {:induction false} SumFirstTotalsOfOne(p: Progress, i: nat, count: int, n: nat)
    requires HasAllWeeks(p) && i < |Surahs| && n <= |Surahs|
    requires forall j :: 0 <= j < |Surahs| ==> UnitTotal(p, Surahs[j].key) == if j == i then count else 0
    ensures SumFirstTotals(p, n) == if i < n then count else 0
  {
    if n > 0 {
      SumFirstTotalsOfOne(p, i, count, n - 1);
    }
  }

  /** A store in which every surah's total is its verse count. */
  lemma {:induction false} SumFirstTotalsComplete(p: Progress, n: nat)
    requires HasAllWeeks(p) && n <= |Surahs|
    requires forall j :: 0 <= j < |Surahs| ==> UnitTotal(p, Surahs[j].key) == Surahs[j].value
    ensures SumFirstTotals(p, n) == SumValues(Surahs[..n])
  {
    if n > 0 {
      SumFirstTotalsComplete(p, n - 1);
      SumValuesPrefix(Surahs, n - 1);
    }
  }

  /** A week holding only `name: count`, every other week empty. */
  function OnlyCell(week: int, name: string, count: int): Progress
    requires IsWeek(week)
  {
    InitialProgress()[week := [Entry(name, count)]]
  }

  /** One in-range count for the i-th surah in one week: that is the surah's total and the overall total. */
  lemma OnlyCellTotals(week: int, i: nat, count: int)
    requires IsWeek(week) && i < |Surahs| && 0 <= count <= Surahs[i].value
    ensures WellFormed(OnlyCell(week, Surahs[i].key, count))
    ensures UnitTotal(OnlyCell(week, Surahs[i].key, count), Surahs[i].key) == count
    ensures TotalMemorized(OnlyCell(week, Surahs[i].key, count)) == count
  {
    CatalogueWellFormed();
    var name := Surahs[i].key;
    var p := OnlyCell(week, name, count);
    var d := [Entry(name, count)];
    assert d[1..] == [];
    assert InCatalogue(name) by {
      assert Names()[i] == name;
    }
    assert CountsInRange(d);
    forall j | 0 <= j < |Surahs|
      ensures UnitTotal(p, Surahs[j].key) == if j == i then count else 0
    {
    }
    SumFirstTotalsOfOne(p, i, count, |Surahs|);
  }

  /** In a fresh session every cell, every total and the tier read as nothing memorised. */
  lemma FreshSession(week: int, name: string)
    requires IsWeek(week)
    ensures Cell(InitialProgress(), week, name) == 0
    ensures UnitTotal(InitialProgress(), name) == 0
    ensures TotalMemorized(InitialProgress()) == 0
    ensures Achievement(InitialProgress()) == Beginning
  {
    var p := InitialProgress();
    forall j | 0 <= j < |Surahs| ensures UnitTotal(p, Surahs[j].key) == 0 {
    }
    SumFirstTotalsOfOne(p, 0, 0, |Surahs|);
  }

  /** 9 of Al-Hujurat's 18 verses in week 1: its bar is 9/18, the total 9 of 548, the lowest band. */
  lemma HalfOfAlHujurat()
    ensures Percentages(OnlyCell(1, "Al-Hujurat", 9))[0] == Ratio(9, 18)
    ensures TotalMemorized(OnlyCell(1, "Al-Hujurat", 9)) == 9
    ensures TotalVerses() == 548
    ensures Achievement(OnlyCell(1, "Al-Hujurat", 9)) == Beginning
  {
    assert Surahs[0].key == "Al-Hujurat";
    OnlyCellTotals(1, 0, 9);
    PercentagesMeaning(OnlyCell(1, "Al-Hujurat", 9), 0);
  }

  /** Yaseen's 83 verses recorded in week 1 and again in week 2: the total is 166 and its bar 166/83, not capped. */
  lemma YaseenCountedTwice()
    ensures var p := OnlyCell(1, "Yaseen", 83)[2 := [Entry("Yaseen", 83)]];
      && WellFormed(p)
      && UnitTotal(p, "Yaseen") == 166 > VersesOf("Yaseen")
      && Percentages(p)[1] == Ratio(166, 83)
  {
    var d := [Entry("Yaseen", 83)];
    var p := OnlyCell(1, "Yaseen", 83)[2 := d];
    assert Surahs[1].key == "Yaseen" && Names()[1] == "Yaseen";
    assert VersesOf("Yaseen") == 83;
    assert CountsInRange(d);
    assert WellFormed(p);
    assert Cell(p, 1, "Yaseen") == 83 && Cell(p, 2, "Yaseen") == 83;
    assert Cell(p, 3, "Yaseen") == 0 && Cell(p, 4, "Yaseen") == 0;
    PercentagesMeaning(p, 1);
  }

  /** 137 of An-Nisa's verses: 137/548 is exactly 0.25, which belongs to the second band. */
  lemma ExactQuarter()
    ensures TotalMemorized(OnlyCell(1, "An-Nisa", 137)) * 4 == TotalVerses()
    ensures Achievement(OnlyCell(1, "An-Nisa", 137)) == Progressing
  {
    assert Surahs[3].key == "An-Nisa";
    OnlyCellTotals(1, 3, 137);
  }

  /** Every surah fully memorised in week 1: the ratio is exactly 1 and the tier the top band. */
  lemma EverySurahComplete()
    ensures TotalMemorized(InitialProgress()[1 := Surahs]) == TotalVerses()
    ensures Achievement(InitialProgress()[1 := Surahs]) == AlmostThere
  {
    var p := InitialProgress()[1 := Surahs];
    CatalogueWellFormed();
    forall j | 0 <= j < |Surahs| ensures UnitTotal(p, Surahs[j].key) == Surahs[j].value {
      GetAt(Surahs, j, 0);
    }
    SumFirstTotalsComplete(p, |Surahs|);
    assert Surahs[..|Surahs|] == Surahs;
  }
}

=== FILE: store.dfy ===
/**
  The session's progress store: week 1 to 4, each mapped to a dict from surah
  name to the number of verses memorised that week. Reads default to 0; the
  slider loop writes one cell per catalogue surah, in catalogue order.
 */
module Store {
  import opened OrderedDict
  import opened Catalogue

  /** `st.session_state.progress`: week number to that week's dict of memorised counts. */
  type Progress = map<int, Dict>

  /** The week numbers of `range(1, 5)`. */
  predicate IsWeek(w: int)
  {
    1 <= w <= 4
  }

  predicate HasAllWeeks(p: Progress)
  {
    forall w :: 1 <= w <= 4 ==> w in p
  }

  /** `{week: {} for week in range(1, 5)}` */
  function InitialProgress(): (p: Progress)
    ensures WellFormed(p)
    ensures forall w :: IsWeek(w) ==> p[w] == []
  {
    map[1 := [], 2 := [], 3 := [], 4 := []]
  }

  /** A week's dict as the slider loop leaves it: catalogue keys, each once, each within its verse count. */
  ghost predicate CountsInRange(d: Dict)
  {
    && NoDupKeys(d)
    && forall i :: 0 <= i < |d| ==> InCatalogue(d[i].key) && 0 <= d[i].value <= VersesOf(d[i].key)
  }

  /** Exactly weeks 1 to 4, every stored count within its slider's range. */
  ghost predicate WellFormed(p: Progress)
  {
    && (forall w :: w in p <==> IsWeek(w))
    && (forall w :: w in p ==> CountsInRange(p[w]))
  }

  /** `progress[week].get(surah, 0)`. */
  function Cell(p: Progress, week: int, name: string): (count: int)
    requires week in p
    ensures name !in Keys(p[week]) ==> count == 0
  {
    if name in Keys(p[week]) then Get(p[week], name, 0)
    else GetAbsent(p[week], name, 0); Get(p[week], name, 0)
  }

  /** A stored count lies in `[0, verses]`, and a surah never written reads as 0. */
  lemma CellInRange(p: Progress, week: int, name: string)
    requires WellFormed(p) && IsWeek(week) && InCatalogue(name)
    ensures 0 <= Cell(p, week, name) <= VersesOf(name)
    ensures name !in Keys(p[week]) ==> Cell(p, week, name) == 0
  {
    var d := p[week];
    if name in Keys(d) {
      var i :| 0 <= i < |d| && d[i].key == name;
      GetAt(d, i, 0);
    } else {
      GetAbsent(d, name, 0);
    }
  }

  /** After `progress[week][name] = value` that cell reads `value`; every other cell reads as before. */
  lemma StoreCell(p: Progress, week: int, name: string, value: int)
    requires HasAllWeeks(p) && IsWeek(week)
    ensures var p' := p[week := Put(p[week], name, value)];
      && Cell(p', week, name) == value
      && forall w, n :: IsWeek(w) && (w != week || n != name) ==> Cell(p', w, n) == Cell(p, w, n)
  {
    var d := p[week];
    PutGetSame(d, name, value, 0);
    forall n | n != name ensures Get(Put(d, name, value), n, 0) == Get(d, n, 0) {
      PutGetOther(d, name, value, n, 0);
    }
  }

  /** The slider pass after `i + 1` surahs is the pass after `i` followed by one more store. */
  lemma SliderPassStep(d: Dict, values: seq<int>, i: nat)
    requires |values| == |Surahs| && i < |Surahs|
    ensures InCatalogue(Surahs[i].key) && VersesOf(Surahs[i].key) == Surahs[i].value
    ensures PutAll(d, Names()[..i + 1], values[..i + 1])
         == Put(PutAll(d, Names()[..i], values[..i]), Surahs[i].key, values[i])
  {
    assert Names()[i] == Surahs[i].key;
    assert Names()[..i + 1][..i] == Names()[..i];
    assert values[..i + 1][..i] == values[..i];
  }

  /** The same step for the whole store: storing the i-th slider value extends the pass by one surah. */
  lemma SliderPassStoreStep(p: Progress, week: int, d: Dict, values: seq<int>, i: nat)
    requires |values| == |Surahs| && i < |Surahs|
    ensures InCatalogue(Surahs[i].key) && VersesOf(Surahs[i].key) == Surahs[i].value
    ensures var before := p[week := PutAll(d, Names()[..i], values[..i])];
      before[week := Put(before[week], Surahs[i].key, values[i])]
        == p[week := PutAll(d, Names()[..i + 1], values[..i + 1])]
  {
    SliderPassStep(d, values, i);
  }

  /** Once all `|Surahs|` surahs are stored, the pass is complete. */
  lemma SliderPassDone(p: Progress, week: int, values: seq<int>)
    requires week in p && |values| == |Surahs|
    ensures AfterSliders(p, week, values) == p[week := PutAll(p[week], Names()[..|Surahs|], values[..|Surahs|])]
  {
    assert Names()[..|Surahs|] == Names();
    assert values[..|Surahs|] == values;
  }

  /** Storing an in-range slider value for a catalogue surah keeps the store well formed. */
  lemma PutKeepsWellFormed(p: Progress, week: int, name: string, value: int)
    requires WellFormed(p) && IsWeek(week) && InCatalogue(name) && 0 <= value <= VersesOf(name)
    ensures WellFormed(p[week := Put(p[week], name, value)])
  {
    var d := p[week];
    var r := Put(d, name, value);
    PutNoDup(d, name, value);
    PutEntries(d, name, value);
    forall i | 0 <= i < |r|
      ensures InCatalogue(r[i].key) && 0 <= r[i].value <= VersesOf(r[i].key)
    {
      assert r[i] in r;
      if r[i] != Entry(name, value) {
        var j :| 0 <= j < |d| && d[j] == r[i];
      }
    }
    assert CountsInRange(r);
    var q := p[week := r];
    forall w | w in q ensures CountsInRange(q[w]) {
    }
  }

  /** The store after the slider loop for `week` stored `values[i]` for the i-th catalogue surah. */
  function AfterSliders(p: Progress, week: int, values: seq<int>): (q: Progress)
    requires week in p && |values| == |Surahs|
    ensures forall w :: w in q <==> w in p
    ensures forall w :: w in p && w != week ==> q[w] == p[w]
  {
    p[week := PutAll(p[week], Names(), values)]
  }

  /** After the slider pass, each catalogue surah of the week reads its slider's value. */
  lemma SliderPassWrites(p: Progress, week: int, values: seq<int>, i: nat)
    requires HasAllWeeks(p) && IsWeek(week) && |values| == |Surahs| && i < |Surahs|
    ensures Cell(AfterSliders(p, week, values), week, Surahs[i].key) == values[i]
  {
    CatalogueWellFormed();
    PutAllGetWritten(p[week], Names(), values, i, 0);
  }

  /** The slider pass changes no other week, and no key of the week outside the catalogue. */
  lemma SliderPassFrame(p: Progress, week: int, values: seq<int>, w: int, name: string)
    requires HasAllWeeks(p) && IsWeek(week) && |values| == |Surahs| && IsWeek(w)
    requires w != week || !InCatalogue(name)
    ensures Cell(AfterSliders(p, week, values), w, name) == Cell(p, w, name)
  {
    if w == week {
      PutAllGetOther(p[week], Names(), values, name, 0);
    }
  }

  /** Sliders all left at their defaults (the stored counts) change no count. */
  lemma SliderPassDefaults(p: Progress, week: int, values: seq<int>, name: string)
    requires HasAllWeeks(p) && IsWeek(week) && |values| == |Surahs|
    requires forall i :: 0 <= i < |Surahs| ==> values[i] == Cell(p, week, Surahs[i].key)
    ensures Cell(AfterSliders(p, week, values), week, name) == Cell(p, week, name)
  {
    PutAllUnchangedValues(p[week], Names(), values, 0, name);
  }

  /** A week written for the first time lists the surahs in catalogue order, with their slider values. */
  lemma SliderPassFirstTime(p: Progress, week: int, values: seq<int>)
    requires HasAllWeeks(p) && IsWeek(week) && |values| == |Surahs| && p[week] == []
    ensures AfterSliders(p, week, values)[week]
         == seq(|Surahs|, i requires 0 <= i < |Surahs| => Entry(Surahs[i].key, values[i]))
  {
    CatalogueWellFormed();
    PutAllIntoEmpty(Names(), values);
  }

  /**
    A later slider pass on a week the loop has already laid out keeps that layout:
    the catalogue surahs in catalogue order, each now with its new slider value.
   */
  lemma SliderPassLaterTime(p: Progress, week: int, values: seq<int>)
    requires HasAllWeeks(p) && IsWeek(week) && |values| == |Surahs| && Keys(p[week]) == Names()
    ensures AfterSliders(p, week, values)[week]
         == seq(|Surahs|, i requires 0 <= i < |Surahs| => Entry(Surahs[i].key, values[i]))
  {
    CatalogueWellFormed();
    var r := AfterSliders(p, week, values)[week];
    PutAllKeysPresent(p[week], Names(), values);
    assert |r| == |Keys(r)| == |Surahs|;
    assert NoDupKeys(r) by {
      forall a, b | 0 <= a < b < |r| ensures r[a].key != r[b].key {
        assert r[a].key == Keys(r)[a] && r[b].key == Keys(r)[b];
      }
    }
    forall i | 0 <= i < |Surahs| ensures r[i] == Entry(Surahs[i].key, values[i]) {
      assert r[i].key == Keys(r)[i] == Names()[i];
      GetAt(r, i, 0);
      PutAllGetWritten(p[week], Names(), values, i, 0);
    }
  }

  /** Every slider pass, the first on an empty week or any later one, leaves the week's surahs in catalogue order. */
  lemma SliderPassCatalogueOrder(p: Progress, week: int, values: seq<int>)
    requires HasAllWeeks(p) && IsWeek(week) && |values| == |Surahs|
    requires p[week] == [] || Keys(p[week]) == Names()
    ensures Keys(AfterSliders(p, week, values)[week]) == Names()
  {
    if p[week] == [] {
      SliderPassFirstTime(p, week, values);
    } else {
      SliderPassLaterTime(p, week, values);
    }
  }
}

=== FILE: tracker.dfy ===
/**
  The tracker's session state and what one interaction does to it.
  `progress` and `reflections` are the two dicts kept in the session across reruns;
  the slider values, the text area's text and today's date come from outside and
  are parameters here.
 */
module Tracker {
  import opened OrderedDict
  import opened Catalogue
  import opened Store
  import opened Aggregate
  import opened Report

  /** The `save_data` record shown when "Save Progress" is pressed. */
  datatype SaveRecord = SaveRecord(date: string, week: int, progress: Dict, reflection: string)

  class Tracker {
    /** `st.session_state.progress`: week to (surah to memorised count). */
    var progress: Progress
    /** `st.session_state.reflections`: week to that week's reflection text. */
    var reflections: map<int, string>

    ghost predicate Valid()
      reads this
    {
      WellFormed(progress)
    }

    /** The session's first run: four empty weeks and no reflections. */
    constructor ()
      ensures Valid()
      ensures forall w :: w in progress <==> IsWeek(w)
      ensures forall w :: IsWeek(w) ==> progress[w] == []
      ensures reflections == map[]
    {
      progress := InitialProgress();
      reflections := map[];
    }

    /** The slider's starting value: `progress[week].get(surah, 0)`. */
    function SliderDefault(week: int, name: string): (v: int)
      reads this
      requires Valid() && IsWeek(week) && InCatalogue(name)
      ensures 0 <= v <= VersesOf(name)
      ensures name !in Keys(progress[week]) ==> v == 0
    {
      CellInRange(progress, week, name);
      Cell(progress, week, name)
    }

    /**
      `progress[week][surah] = value`, with the value the slider returned.
      What the new store reads is stated by `StoreCell`.
     */
    method SetCell(week: int, name: string, value: int)
      requires Valid() && IsWeek(week) && InCatalogue(name) && 0 <= value <= VersesOf(name)
      modifies this
      ensures Valid()
      ensures progress == old(progress)[week := Put(old(progress)[week], name, value)]
      ensures reflections == old(reflections)
    {
      PutKeepsWellFormed(progress, week, name, value);
      progress := progress[week := Put(progress[week], name, value)];
    }

    /**
      One pass of the slider loop: for each catalogue surah in order, store the
      value its slider returned in the week's dict. What the new store reads is
      stated by the `SliderPass` lemmas.
     */
    method StoreSliders(week: int, values: seq<int>)
      requires Valid() && IsWeek(week)
      requires |values| == |Surahs|
      requires forall i :: 0 <= i < |Surahs| ==> 0 <= values[i] <= Surahs[i].value
      modifies this
      ensures Valid()
      ensures progress == AfterSliders(old(progress), week, values)
      ensures reflections == old(reflections)
    {
      ghost var d0 := progress[week];
      for i := 0 to |Surahs|
        invariant Valid()
        invariant progress == old(progress)[week := PutAll(d0, Names()[..i], values[..i])]
        invariant reflections == old(reflections)
      {
        SliderPassStoreStep(old(progress), week, d0, values, i);
        SetCell(week, Surahs[i].key, values[i]);
      }
      SliderPassDone(old(progress), week, values);
    }

    /** `reflections[week] = text`. */
    method SetReflection(week: int, text: string)
      requires Valid() && IsWeek(week)
      modifies this
      ensures Valid()
      ensures progress == old(progress)
      ensures reflections == old(reflections)[week := text]
      ensures ReflectionOf(week) == text
      ensures forall w :: w != week ==> ReflectionOf(w) == old(ReflectionOf(w))
    {
      reflections := reflections[week := text];
    }

    /** `reflections.get(week, "")`. */
    function ReflectionOf(week: int): (text: string)
      reads this
      ensures week in reflections ==> text == reflections[week]
      ensures week !in reflections ==> text == ""
    {
      if week in reflections then reflections[week] else ""
    }

    /** The `save_data` record for `week`, stamped with `date`. */
    function SaveData(date: string, week: int): (r: SaveRecord)
      reads this
      requires Valid() && IsWeek(week)
      ensures r.week == week && r.date == date
      ensures r.progress == progress[week]
      ensures week in reflections ==> r.reflection == reflections[week]
      ensures week !in reflections ==> r.reflection == ""
    {
      SaveRecord(date, week, progress[week], ReflectionOf(week))
    }

    /** The downloadable report: header, then `report += ...` once per entry of the week's dict. */
    method BuildReport(week: int) returns (report: string)
      requires week in progress
      ensures report == ReportText(week, ReflectionOf(week), progress[week])
    {
      var d := progress[week];
      var h := Header(week, ReflectionOf(week));
      report := h;
      assert d[..0] == [];
      for i := 0 to |d|
        invariant report == h + Lines(d[..i])
      {
        ReportStep(h, d, i);
        report := report + Line(d[i]);
      }
      assert d[..|d|] == d;
    }

    /**
      One rerun of the page for the selected week: the slider loop stores each
      slider's value, the text area's text becomes the week's reflection, and the
      tier of the updated store is reported along with the bar chart's ratios.
     */
    method Rerun(week: int, values: seq<int>, text: string) returns (tier: Tier, bars: seq<Ratio>)
      requires Valid() && IsWeek(week)
      requires |values| == |Surahs|
      requires forall i :: 0 <= i < |Surahs| ==> 0 <= values[i] <= Surahs[i].value
      modifies this
      ensures Valid()
      ensures progress == AfterSliders(old(progress), week, values)
      ensures reflections == old(reflections)[week := text]
      ensures tier == Achievement(progress) && bars == Percentages(progress)
    {
      StoreSliders(week, values);
      SetReflection(week, text);
      tier := Achievement(progress);
      bars := Percentages(progress);
    }
  }
}
